=== FILE: README.md ===
# Money transfer between accounts, modelled in Dafny

This project models the transfer core of a small banking service: the
`AccountsService.transferMoney` operation and the `TransferMoneyModel` request
it receives. An account store maps account ids to exact balances. A transfer
looks up both accounts and refuses a missing account or a transfer to the same
account (`InvalidAccountDetails`). It then takes the two accounts' monitors in
the order of their ids under Java's `String.compareTo`. Holding both, it
debits the source and credits the destination when the amount does not exceed
the source balance, and otherwise throws `InsufficientFunds` without writing
anything. After a successful transfer it notifies the source, then the
destination.

The model is functional. `Transfer` maps a store, a source id, a destination
id and an amount to an `Outcome`: the new store, the monitors taken in order,
the notifications sent and the exception thrown, if any. `TransferMoney`
applies it to a validated request. The two nested `synchronized` blocks are one atomic
step. Deadlock freedom is stated through the lock order:
`LockOrder(a, b) == LockOrder(b, a)`, and no set of in-flight transfers can
wait on each other in a cycle (`NoWaitCycle`).

Files, one module each: `wrappers.dfy` (Java `null` as `Option`),
`java_string.dfy` (`String.compareTo`), `lock_order.dfy` (the lock-order choice
and deadlock freedom), `accounts.dfy` (store, lookup, write-back, creation,
total money), `transfer_request.dfy` (request and its validation constraints),
`accounts_service.dfy` (the transfer), `scenarios.dfy` (the test scenarios).

Facts about the code that the model keeps:
- The code has one exception class, `InvalidAccountDetails`, for a missing
  account and for a same-account transfer, told apart by message.
- The service never checks the amount. The request is validated before the
  call, and `TransferMoney` takes that as a precondition.
  `NegativeAmountFlowsBackwards` shows what the service alone does with a
  negative amount.
- Both lookups happen before any monitor is taken. The balance compared inside
  the monitors is the one on the shared account object.

## Model

| member | source | states |
|---|---|---|
| JavaString.CompareTo | challenge2/src/main/java/com/db/awmd/challenge/service/AccountsService.java:42 | Java's string comparison is zero exactly when the two ids are equal |
| JavaString.CompareToFirstDifference | challenge2/src/main/java/com/db/awmd/challenge/service/AccountsService.java:42 | at the first index where two ids differ, the result is the difference of the characters there, as Java returns |
| JavaString.CompareToPrefix | challenge2/src/main/java/com/db/awmd/challenge/service/AccountsService.java:42 | when one id is a prefix of the other, the result is the difference of the lengths, as Java returns |
| JavaString.CompareToAntisymmetric | challenge2/src/main/java/com/db/awmd/challenge/service/AccountsService.java:42 | comparing b with a gives the negation of comparing a with b |
| JavaString.LessTransitive | challenge2/src/main/java/com/db/awmd/challenge/service/AccountsService.java:42 | "sorts strictly before" is transitive |
| JavaString.LessTotal | challenge2/src/main/java/com/db/awmd/challenge/service/AccountsService.java:42 | of two distinct ids exactly one sorts before the other, and no id sorts before itself |
| JavaString.ProperPrefixIsLess | challenge2/src/main/java/com/db/awmd/challenge/service/AccountsService.java:42 | a proper prefix sorts before the longer id |
| LockOrdering.LockOrder | challenge2/src/main/java/com/db/awmd/challenge/service/AccountsService.java:39-45 | the lock pair is the source and destination in some order, the smaller id first |
| LockOrdering.LockOrderSymmetric | challenge2/src/main/java/com/db/awmd/challenge/service/AccountsService.java:39-49 | the lock order for A to B is the same as for B to A |
| LockOrdering.NoWaitCycle | challenge2/src/main/java/com/db/awmd/challenge/service/AccountsService.java:46-49 | no cycle of transfers, each holding its first monitor and waiting for the next one's, can exist: deadlock freedom |
| Accounts.GetAccount | challenge2/src/main/java/com/db/awmd/challenge/service/AccountsService.java:69-71 | lookup yields null exactly when the id is absent, otherwise the account with that id and its stored balance |
| Accounts.UpdateBalance | challenge2/src/main/java/com/db/awmd/challenge/service/AccountsService.java:53-54 | writing an account back sets its balance and leaves every other account and the set of ids alone |
| Accounts.CreateAccount | challenge2/src/main/java/com/db/awmd/challenge/service/AccountsService.java:26-28 | creation fails with the duplicate-id message exactly when the id exists, otherwise adds just that account |
| Accounts.CreateAccountTotal | challenge2/src/main/java/com/db/awmd/challenge/service/AccountsService.java:26-28 | creating an account adds its opening balance to the total money and keeps balances non-negative |
| TransferRequest.ValidAsWrittenMeans | challenge2/src/main/java/com/db/awmd/challenge/domain/TransferMoneyModel.java:18-27 | the three annotations as written (`ValidAsWritten`): a request is valid exactly when both ids are non-null and non-empty and the amount is null or at least 1 |
| TransferRequest.ValidMeans | challenge2/src/main/java/com/db/awmd/challenge/domain/TransferMoneyModel.java:18-27 | the same with `@NotNull` on the amount (`Valid`): a request is valid exactly when both ids are non-null and non-empty and the amount is at least 1 |
| TransferRequest.MissingIdRejected | challenge2/src/main/java/com/db/awmd/challenge/domain/TransferMoneyModel.java:18-24 | a null or empty source or destination id makes the request invalid |
| TransferRequest.AmountsBelowOneRejected | challenge2/src/main/java/com/db/awmd/challenge/domain/TransferMoneyModel.java:26-27 | any amount below 1, fractions included, is rejected |
| TransferRequest.NullAmountPassesAsWritten | challenge2/src/main/java/com/db/awmd/challenge/domain/TransferMoneyModel.java:26-27 | as annotated, a request without an amount passes validation |
| TransferRequest.SameIdsCanBeValid | challenge2/src/main/java/com/db/awmd/challenge/domain/TransferMoneyModel.java:18-27 | validity requires neither distinct nor existing ids |
| AccountsService.CheckAccounts | challenge2/src/main/java/com/db/awmd/challenge/service/AccountsService.java:31-38 | the invalid-details message exactly when an account is missing, the same-account message exactly when both exist and the ids are equal, and no rejection otherwise |
| AccountsService.Locked | challenge2/src/main/java/com/db/awmd/challenge/service/AccountsService.java:48-65 | inside both monitors: success exactly when the amount is at most the source balance; then both balances move by the amount, otherwise nothing changes and nobody is notified |
| AccountsService.Transfer | challenge2/src/main/java/com/db/awmd/challenge/service/AccountsService.java:30-67 | each error arises exactly under its condition, in code order, and leaves the store alone with no notification; success moves exactly the two balances by the amount; monitors are taken, in lock order, only once both accounts exist and differ |
| AccountsService.TransferMoney | challenge2/src/main/java/com/db/awmd/challenge/service/AccountsService.java:30-67 | on a validated request, with a notifier that returns normally, only the two declared exceptions can arise, and non-negative balances stay non-negative |
| AccountsService.TransferMoneyAsWritten | challenge2/src/main/java/com/db/awmd/challenge/service/AccountsService.java:50 | a request with a null amount that passed validation throws a null-pointer exception exactly when both accounts exist and differ; it then holds both monitors in lock order, writes no balance and notifies nobody |
| AccountsService.TransferConservesTotal | challenge2/src/main/java/com/db/awmd/challenge/service/AccountsService.java:50-54 | the total money in the store is the same after any transfer |
| AccountsService.TransferConservesPair | challenge2/src/main/java/com/db/awmd/challenge/service/AccountsService.java:50-54 | the sum of the source and destination balances is the same after any transfer |
| AccountsService.TransferPreservesNonNegative | challenge2/src/main/java/com/db/awmd/challenge/service/AccountsService.java:50-52 | with a non-negative amount, non-negative balances stay non-negative |
| AccountsService.WholeBalanceEmptiesSource | challenge2/src/main/java/com/db/awmd/challenge/service/AccountsService.java:50-51 | sending exactly the source balance succeeds and leaves the source at zero |
| AccountsService.NegativeAmountFlowsBackwards | challenge2/src/main/java/com/db/awmd/challenge/service/AccountsService.java:50-52 | the service alone accepts a negative amount, moves money into the source and can drive the destination negative |
| AccountsService.MissingAccountCheckedFirst | challenge2/src/main/java/com/db/awmd/challenge/service/AccountsService.java:31-38 | a missing account is reported with the invalid-details message even when the two ids are also equal |
| AccountsService.SuccessNotifiesBoth | challenge2/src/main/java/com/db/awmd/challenge/service/AccountsService.java:60-65 | a successful transfer sends exactly two notifications, source first, each with the updated account |
| AccountsService.OppositeTransfersLockAlike | challenge2/src/main/java/com/db/awmd/challenge/service/AccountsService.java:39-49 | transfers A to B and B to A that take monitors take them in the same order |
| AccountsService.RunInvariant | challenge2/src/main/java/com/db/awmd/challenge/service/AccountsService.java:50-54 | any sequence of validated transfers keeps the total money and keeps all balances non-negative |
| Scenarios.JohnSendsRonHundred | challenge2/src/test/java/com/db/awmd/challenge/AccountsServiceTest.java:55-63 | John 1245 sending 100 to Ron 123.45 leaves John with 1145, as the test asserts; Ron's 223.45 follows from the model, since the test checks John only |
| Scenarios.JohnCannotSendTenThousand | challenge2/src/test/java/com/db/awmd/challenge/AccountsServiceTest.java:77-85 | restates the test, whose accounts are named Jony and Rony, with the same balances under the names John and Ron: sending 10000 against 1245 fails for insufficient funds and changes nothing |
| Scenarios.UnknownRecipientRejected | challenge2/src/test/java/com/db/awmd/challenge/AccountsControllerTest.java:143-151 | sending to the unknown id "RON" fails with invalid account details, no monitor taken, nothing changed |
| Scenarios.NegativeAmountRequestRejected | challenge2/src/test/java/com/db/awmd/challenge/AccountsControllerTest.java:120-129 | requests for -10 or 0.5 do not pass validation |
| Scenarios.NullAmountReachesService | challenge2/src/main/java/com/db/awmd/challenge/domain/TransferMoneyModel.java:26-27 | a request for John to Ron without an amount passes the annotated constraints and then throws a null-pointer exception holding both monitors, with balances unchanged and no notification |

## Findings

| source | as written | input that shows it | evidently intended | confidence | as-written member | corrected member |
|---|---|---|---|---|---|---|
| challenge2/src/main/java/com/db/awmd/challenge/domain/TransferMoneyModel.java:26-27 | `amount` carries `@Min(1)` but no `@NotNull`. Bean Validation counts a null value as satisfying `@Min`, so a request without an amount passes. The service then dereferences it at AccountsService.java:50, inside both monitors. | `{"accountFromId":"John","accountToId":"Ron"}` with both accounts present | the amount is required, like both ids, and a valid request can only fail with the two declared exceptions | medium: it depends on the validation semantics, not on code in this repository; not executed | Scenarios.NullAmountReachesService | AccountsService.TransferMoney |

## Left out

- Threads and `synchronized`: the two monitors are one atomic step. Interleavings between the lookups and the monitor acquisition are not modelled. The notifications are part of the same step in the model, whereas the source sends them after both monitors are released and passes the live, shared account objects, so a concurrent transfer can change the balance a notifier sees. Deadlock freedom is stated as lock-order symmetry and the absence of a wait cycle, not as a property of executions.
- Spring wiring, the HTTP controller, JSON binding and the validation engine: plumbing. Only the meaning of the three field constraints is modelled.
- The repository: `AccountsRepository` is not part of this model. The store is a map keyed by account id, and the key is assumed to equal the account's own id. `CreateAccount` is the repository contract the tests imply (AccountsServiceTest.java:41-52), not modelled code. Opening balances are not checked by the model, because the `Account` class and its constraints are not part of this model.
- Null ids in the service: `TransferMoney` requires a validated request. What the repository does with a null id is not visible.
- AccountsService.SuccessNotifiesBoth: "each with the updated account" holds in the sequential model only; concurrently, the account objects handed to the notifier may already carry a later transfer's balance.
- `NotificationService` is an interface with no behaviour. Its implementation is assumed to return normally. If `notifyAboutTransfer` threw at AccountsService.java:64, the exception would reach the caller after both balances were written, and the destination would not be notified (:65). Notifications are events of the account and a note (amount and counterparty), with no message text, because that depends on `BigDecimal.toString`.
- `BigDecimal` scale and precision: balances are exact `real`s, so 1145 and 1145.00 are the same value.
- JavaString.CompareTo: compares Dafny characters (Unicode scalar values), whereas Java compares UTF-16 code units. Both agree on ids without supplementary characters; for those, Java's order differs. The proofs only need a total order, which both are.

=== FILE: accounts.dfy ===
/**
 * The account store the transfer service reads and writes through: a map from
 * account id to the account's exact balance (a `BigDecimal` in the service,
 * whose addition, subtraction and comparison are exact, so a `real` here).
 */
module Accounts {
  import opened Wrappers

  /** An account as the service sees it: its id and its current balance. */
  datatype Account = Account(accountId: string, balance: real)

  /** Authoritative balances, keyed by account id. */
  type Store = map<string, real>

  /** Every balance in the store is non-negative. */
  predicate NonNegative(store: Store) {
    forall id :: id in store ==> store[id] >= 0.0
  }

  /** Reading an account: the record under that id, or `None` (Java `null`) when there is none. */
  function GetAccount(store: Store, accountId: string): (r: Option<Account>)
    ensures r.None? <==> accountId !in store
    ensures r.Some? ==> r.value.accountId == accountId && r.value.balance == store[accountId]
  {
    if accountId in store then Some(Account(accountId, store[accountId])) else None
  }

  /** Writing an account back: its balance becomes the authoritative one for its id. */
  function UpdateBalance(store: Store, account: Account): (s: Store)
    requires account.accountId in store
    ensures s.Keys == store.Keys
    ensures s[account.accountId] == account.balance
    ensures forall id :: id in store && id != account.accountId ==> s[id] == store[id]
  {
    store[account.accountId := account.balance]
  }

  /** The repository's refusal to create a second account under an existing id. */
  datatype DuplicateAccountId = DuplicateAccountId(message: string)

  /** Outcome of creating an account: the new store, or the duplicate-id error. */
  datatype Creation = Created(store: Store) | Duplicate(error: DuplicateAccountId)

  /** Creating an account: rejected when its id is taken, otherwise added without touching the others. */
  function CreateAccount(store: Store, account: Account): (c: Creation)
    ensures c.Duplicate? <==> account.accountId in store
    ensures c.Duplicate? ==> c.error.message == "Account id " + account.accountId + " already exists!"
    ensures c.Created? ==> c.store.Keys == store.Keys + {account.accountId}
    ensures c.Created? ==> GetAccount(c.store, account.accountId) == Some(account)
    ensures c.Created? ==> forall id :: id in store ==> c.store[id] == store[id]
  {
    if account.accountId in store then
      Duplicate(DuplicateAccountId("Account id " + account.accountId + " already exists!"))
    else
      Created(store[account.accountId := account.balance])
  }

  /** The total amount of money held in the store. */
  ghost function Total(store: Store): real
    decreases |store|
  {
    if store == map[] then 0.0
    else
      var id :| id in store;
      store[id] + Total(store - {id})
  }

  /** Any single account can be split off the total, whichever one `Total` happens to pick. */
  lemma {:induction false} TotalSplit(store: Store, id: string)
    requires id in store
    ensures Total(store) == store[id] + Total(store - {id})
    decreases |store|
  {
    var picked :| picked in store && Total(store) == store[picked] + Total(store - {picked});
    if picked != id {
      var rest := store - {picked};
      TotalSplit(rest, id);
      TotalSplit(store - {id}, picked);
      assert rest - {id} == (store - {id}) - {picked};
    }
  }

  /** Overwriting one balance changes the total by exactly the difference. */
  lemma TotalUpdate(store: Store, id: string, balance: real)
    requires id in store
    ensures Total(store[id := balance]) == Total(store) - store[id] + balance
  {
    TotalSplit(store, id);
    TotalSplit(store[id := balance], id);
    assert store[id := balance] - {id} == store - {id};
  }

  /** Creating an account adds its opening balance to the total and keeps balances non-negative. */
  lemma CreateAccountTotal(store: Store, account: Account)
    requires account.accountId !in store
    ensures Total(CreateAccount(store, account).store) == Total(store) + account.balance
    ensures NonNegative(store) && account.balance >= 0.0 ==> NonNegative(CreateAccount(store, account).store)
  {
    var s := CreateAccount(store, account).store;
    TotalSplit(s, account.accountId);
    assert s - {account.accountId} == store;
  }
}

=== FILE: accounts_service.dfy ===
/**
 * `AccountsService.transferMoney`: the checks, the lock-ordered critical
 * section with its guarded debit and credit, and the notifications sent after
 * a successful transfer.
 *
 * A call is one state transition of the account store. The two nested
 * monitors are one atomic step here; the order in which they are taken is kept
 * in the outcome so that properties of the lock order can be stated about the
 * transition itself.
 */
module AccountsService {
  import opened Wrappers
  import opened LockOrdering
  import opened Accounts
  import opened TransferRequest

  const InvalidDetailsMessage: string := "Invalid Account details"
  const SameAccountMessage: string := "Can not transfer within same account"
  const InsufficientFundsMessage: string := "Insufficient funds"

  /**
   * What a transfer can throw: the two declared checked exceptions, and the
   * `NullPointerException` a request without an amount runs into.
   */
  datatype TransferError =
    | InvalidAccountDetails(message: string)
    | InsufficientFunds(message: string)
    | NullPointer

  /** What a notification tells its account; the message text is built from these. */
  datatype TransferNote =
    | SentTo(amount: real, accountToId: string)
    | ReceivedFrom(amount: real, accountFromId: string)

  /** One call of the notification service, with the account object as it stands after the transfer. */
  datatype Notification = Notification(account: Account, note: TransferNote)

  /**
   * The effect of one call: the store afterwards, the monitors taken in the
   * order they were taken, the notifications sent in order, and the exception
   * thrown, if any.
   */
  datatype Outcome = Outcome(
    store: Store,
    locks: seq<string>,
    notifications: seq<Notification>,
    error: Option<TransferError>)

  /**
   * The two checks made before any monitor is taken, in code order: both
   * accounts must exist, then they must differ. Gives the message of the
   * `InvalidAccountDetails` to throw, or `None` when both checks pass.
   */
  function CheckAccounts(store: Store, from: string, to: string): (rejection: Option<string>)
    ensures rejection == Some(InvalidDetailsMessage) <==> from !in store || to !in store
    ensures rejection == Some(SameAccountMessage) <==> from in store && to in store && from == to
    ensures rejection.None? <==> from in store && to in store && from != to
  {
    var source := GetAccount(store, from);
    var destination := GetAccount(store, to);
    if source.None? || destination.None? then
      Some(InvalidDetailsMessage)
    else if source.value.accountId == destination.value.accountId then
      Some(SameAccountMessage)
    else
      None
  }

  /** A failure detected before any monitor is taken. */
  function Rejected(store: Store, message: string): Outcome {
    Outcome(store, [], [], Some(InvalidAccountDetails(message)))
  }

  /**
   * The critical section, entered with both monitors held: debit and credit
   * when the amount does not exceed the source balance, otherwise throw
   * without writing anything; notify both parties after the monitors are
   * released, source first.
   */
  function Locked(store: Store, source: Account, destination: Account, amount: real, order: LockPair): (o: Outcome)
    requires source.accountId in store && destination.accountId in store
    requires source.accountId != destination.accountId
    requires source.balance == store[source.accountId] && destination.balance == store[destination.accountId]
    requires order == LockOrder(source.accountId, destination.accountId)
    ensures o.locks == [order.first, order.second]
    ensures o.error.None? <==> amount <= source.balance
    ensures o.error.Some? ==> o.store == store && o.notifications == []
    ensures o.error.None? ==> o.store == store[source.accountId := source.balance - amount]
                                              [destination.accountId := destination.balance + amount]
  {
    var locks := [order.first, order.second];
    if amount <= source.balance then
      var debited := source.(balance := source.balance - amount);
      var credited := destination.(balance := destination.balance + amount);
      var store' := UpdateBalance(UpdateBalance(store, debited), credited);
      Outcome(store', locks,
              [Notification(debited, SentTo(amount, destination.accountId)),
               Notification(credited, ReceivedFrom(amount, source.accountId))],
              None)
    else
      Outcome(store, locks, [], Some(InsufficientFunds(InsufficientFundsMessage)))
  }

  /**
   * Transferring `amount` from `from` to `to`: both accounts must exist, they
   * must differ, and the source must hold at least the amount. The amount
   * itself is not checked here.
   */
  function Transfer(store: Store, from: string, to: string, amount: real): (o: Outcome)
    // Failures: each one leaves the store alone and notifies nobody.
    ensures o.error.Some? ==> o.store == store && o.notifications == []
    ensures (from !in store || to !in store) <==> o.error == Some(InvalidAccountDetails(InvalidDetailsMessage))
    ensures (from in store && to in store && from == to) <==> o.error == Some(InvalidAccountDetails(SameAccountMessage))
    ensures (from in store && to in store && from != to && amount > store[from]) <==>
              o.error == Some(InsufficientFunds(InsufficientFundsMessage))
    ensures o.error != Some(NullPointer)
    // Success: exactly the two balances move, by the amount.
    ensures o.error.None? <==> from in store && to in store && from != to && amount <= store[from]
    ensures o.error.None? ==> o.store.Keys == store.Keys
    ensures o.error.None? ==> o.store[from] == store[from] - amount && o.store[to] == store[to] + amount
    ensures o.error.None? ==> forall id :: id in store && id != from && id != to ==> o.store[id] == store[id]
    // Monitors are only taken once both accounts are known to be distinct.
    ensures o.locks == [] <==> o.error.Some? && o.error.value.InvalidAccountDetails?
    ensures o.locks != [] ==> o.locks == [LockOrder(from, to).first, LockOrder(from, to).second]
  {
    match CheckAccounts(store, from, to)
    case Some(message) => Rejected(store, message)
    case None =>
      var source := GetAccount(store, from).value;
      var destination := GetAccount(store, to).value;
      Locked(store, source, destination, amount, LockOrder(from, to))
  }

  /**
   * `transferMoney` on a request that passed validation. Validity guarantees
   * the ids and an amount of at least one; the service relies on that and,
   * with a notifier that returns normally, throws nothing but its two
   * declared exceptions.
   */
  function TransferMoney(store: Store, req: TransferMoneyModel): (o: Outcome)
    requires Valid(req)
    ensures o.error.Some? ==> o.error.value.InvalidAccountDetails? || o.error.value.InsufficientFunds?
    ensures NonNegative(store) ==> NonNegative(o.store)
  {
    TransferPreservesNonNegative(store, req.accountFromId.value, req.accountToId.value, req.amount.value);
    Transfer(store, req.accountFromId.value, req.accountToId.value, req.amount.value)
  }

  /**
   * `transferMoney` on a request that passed the constraints as annotated,
   * which let the amount be null: the lookups and the same-id check still run,
   * and the first use of the amount, inside both monitors, throws.
   */
  function TransferMoneyAsWritten(store: Store, req: TransferMoneyModel): (o: Outcome)
    requires ValidAsWritten(req)
    ensures req.amount.Some? ==> o == TransferMoney(store, req)
    ensures o.error == Some(NullPointer) <==>
              req.amount.None? && req.accountFromId.value in store && req.accountToId.value in store
              && req.accountFromId.value != req.accountToId.value
    // The exception comes after both monitors are taken and before any write or notification.
    ensures o.error == Some(NullPointer) ==>
              && o.store == store && o.notifications == []
              && o.locks == [LockOrder(req.accountFromId.value, req.accountToId.value).first,
                             LockOrder(req.accountFromId.value, req.accountToId.value).second]
  {
    var from := req.accountFromId.value;
    var to := req.accountToId.value;
    match req.amount
    case Some(amount) => Transfer(store, from, to, amount)
    case None =>
      match CheckAccounts(store, from, to)
      case Some(message) => Rejected(store, message)
      case None =>
        var order := LockOrder(from, to);
        Outcome(store, [order.first, order.second], [], Some(NullPointer))
  }

  /** A successful transfer neither creates nor destroys money: the store's total is unchanged. */
  lemma TransferConservesTotal(store: Store, from: string, to: string, amount: real)
    ensures Total(Transfer(store, from, to, amount).store) == Total(store)
  {
    var o := Transfer(store, from, to, amount);
    if o.error.None? {
      var debited := store[from := store[from] - amount];
      TotalUpdate(store, from, store[from] - amount);
      TotalUpdate(debited, to, store[to] + amount);
      assert o.store == debited[to := store[to] + amount];
    }
  }

  /** The two accounts' combined balance is the same before and after any call. */
  lemma TransferConservesPair(store: Store, from: string, to: string, amount: real)
    requires from in store && to in store
    ensures Transfer(store, from, to, amount).store[from] + Transfer(store, from, to, amount).store[to]
         == store[from] + store[to]
  {
  }

  /** With a non-negative amount no balance goes negative, whatever the outcome. */
  lemma TransferPreservesNonNegative(store: Store, from: string, to: string, amount: real)
    requires amount >= 0.0
    ensures NonNegative(store) ==> NonNegative(Transfer(store, from, to, amount).store)
  {
  }

  /** Sending the whole balance succeeds, since the guard is "at most", and empties the source. */
  lemma WholeBalanceEmptiesSource(store: Store, from: string, to: string)
    requires from in store && to in store && from != to
    ensures Transfer(store, from, to, store[from]).error.None?
    ensures Transfer(store, from, to, store[from]).store[from] == 0.0
  {
  }

  /**
   * Nothing in the service stops a negative amount: the guard passes and money
   * flows from the destination to the source, which may drive the destination
   * below zero. Only validation upstream keeps such amounts out.
   */
  lemma NegativeAmountFlowsBackwards(store: Store, from: string, to: string, amount: real)
    requires from in store && to in store && from != to
    requires amount < 0.0 && store[from] >= 0.0
    ensures Transfer(store, from, to, amount).error.None?
    ensures Transfer(store, from, to, amount).store[from] > store[from]
    ensures store[to] + amount < 0.0 ==> Transfer(store, from, to, amount).store[to] < 0.0
  {
  }

  /** A missing account is reported before identical ids are: the existence check comes first. */
  lemma MissingAccountCheckedFirst(store: Store, id: string, amount: real)
    requires id !in store
    ensures Transfer(store, id, id, amount).error == Some(InvalidAccountDetails(InvalidDetailsMessage))
  {
  }

  /** On success the source is notified first, then the destination, each with its updated account. */
  lemma SuccessNotifiesBoth(store: Store, from: string, to: string, amount: real)
    requires Transfer(store, from, to, amount).error.None?
    ensures Transfer(store, from, to, amount).notifications ==
      [Notification(Account(from, store[from] - amount), SentTo(amount, to)),
       Notification(Account(to, store[to] + amount), ReceivedFrom(amount, from))]
  {
  }

  /** Transfers in opposite directions between the same two accounts take their monitors in the same order. */
  lemma OppositeTransfersLockAlike(store: Store, a: string, b: string, x: real, y: real)
    requires Transfer(store, a, b, x).locks != [] && Transfer(store, b, a, y).locks != []
    ensures Transfer(store, a, b, x).locks == Transfer(store, b, a, y).locks
  {
    LockOrderSymmetric(a, b);
  }

  /** Applying validated requests one after another. */
  function Run(store: Store, reqs: seq<TransferMoneyModel>): (s: Store)
    requires forall i :: 0 <= i < |reqs| ==> Valid(reqs[i])
    ensures s.Keys == store.Keys
    decreases |reqs|
  {
    if reqs == [] then store
    else
      var o := TransferMoney(store, reqs[0]);
      assert o.store.Keys == store.Keys;
      Run(o.store, reqs[1..])
  }

  /** Any run of validated transfers keeps the total and keeps every balance non-negative. */
  lemma {:induction false} RunInvariant(store: Store, reqs: seq<TransferMoneyModel>)
    requires forall i :: 0 <= i < |reqs| ==> Valid(reqs[i])
    ensures Total(Run(store, reqs)) == Total(store)
    ensures NonNegative(store) ==> NonNegative(Run(store, reqs))
    decreases |reqs|
  {
    if reqs != [] {
      var r := reqs[0];
      TransferConservesTotal(store, r.accountFromId.value, r.accountToId.value, r.amount.value);
      RunInvariant(TransferMoney(store, r).store, reqs[1..]);
    }
  }
}

=== FILE: java_string.dfy ===
/**
 * Java's `String.compareTo`, the comparison the transfer service uses to pick
 * the order in which it locks two accounts.
 *
 * Java compares the strings character by character and returns the difference
 * of the first pair of characters that differ; when one string is a prefix of
 * the other it returns the difference of the lengths, so the shorter string
 * comes first.
 */
module JavaString {

  /** Result of `a.compareTo(b)`: negative, zero or positive as `a` sorts before, equal to or after `b`. */
  function CompareTo(a: string, b: string): (r: int)
    ensures r == 0 <==> a == b
    decreases |a|
  {
    if |a| == 0 || |b| == 0 then
      |a| - |b|
    else if a[0] != b[0] then
      a[0] as int - b[0] as int
    else
      var r := CompareTo(a[1..], b[1..]);
      assert a == [a[0]] + a[1..] && b == [b[0]] + b[1..];
      r
  }

  /** `a` sorts strictly before `b`. */
  predicate Less(a: string, b: string) {
    CompareTo(a, b) < 0
  }

  /** `a` is a proper prefix of `b`. */
  predicate ProperPrefix(a: string, b: string) {
    |a| < |b| && b[..|a|] == a
  }

  /** Swapping the operands negates the result exactly. */
  lemma {:induction false} CompareToAntisymmetric(a: string, b: string)
    ensures CompareTo(b, a) == -CompareTo(a, b)
    decreases |a|
  {
    if |a| == 0 || |b| == 0 {
    } else if a[0] != b[0] {
    } else {
      CompareToAntisymmetric(a[1..], b[1..]);
    }
  }

  /** At the first index where the strings differ, the result is the difference of the two characters there. */
  lemma {:induction false} CompareToFirstDifference(a: string, b: string, k: nat)
    requires k < |a| && k < |b| && a[..k] == b[..k] && a[k] != b[k]
    ensures CompareTo(a, b) == a[k] as int - b[k] as int
    decreases k
  {
    if k > 0 {
      assert a[0] == a[..k][0] == b[..k][0] == b[0];
      assert a[1..][..k - 1] == a[..k][1..] == b[..k][1..] == b[1..][..k - 1];
      CompareToFirstDifference(a[1..], b[1..], k - 1);
    }
  }

  /** When one string is a prefix of the other, the result is the difference of the lengths. */
  lemma {:induction false} CompareToPrefix(a: string, b: string)
    requires |a| <= |b| && b[..|a|] == a
    ensures CompareTo(a, b) == |a| - |b|
    decreases |a|
  {
    if |a| > 0 {
      assert a[0] == b[0];
      assert b[1..][..|a| - 1] == b[..|a|][1..];
      CompareToPrefix(a[1..], b[1..]);
    }
  }

  /** `Less` is transitive. */
  lemma {:induction false} LessTransitive(a: string, b: string, c: string)
    requires Less(a, b) && Less(b, c)
    ensures Less(a, c)
    decreases |a|
  {
    if |a| == 0 || |b| == 0 || |c| == 0 {
    } else if a[0] == b[0] && b[0] == c[0] {
      LessTransitive(a[1..], b[1..], c[1..]);
    } else {
    }
  }

  /** Any two distinct strings are ordered one way or the other, and never both ways. */
  lemma LessTotal(a: string, b: string)
    ensures a != b ==> Less(a, b) != Less(b, a)
    ensures !Less(a, a)
  {
    CompareToAntisymmetric(a, b);
  }

  /** A proper prefix sorts first. */
  lemma {:induction false} ProperPrefixIsLess(a: string, b: string)
    requires ProperPrefix(a, b)
    ensures Less(a, b)
    decreases |a|
  {
    if |a| == 0 {
    } else {
      assert a[0] == b[0];
      assert ProperPrefix(a[1..], b[1..]) by {
        assert b[1..][..|a[1..]|] == b[..|a|][1..];
      }
      ProperPrefixIsLess(a[1..], b[1..]);
    }
  }
}

=== FILE: lock_order.dfy ===
/**
 * The lock-order choice of the transfer service and the deadlock-freedom
 * argument built on it.
 *
 * The service locks the account whose id compares smaller first and the other
 * one second. Both monitors are held around the balance check and update, which
 * the model treats as one atomic step; what remains to prove about the locking
 * is that the order depends only on the pair of ids, never on which of them is
 * the source, so that no cycle of transfers can wait on each other.
 */
module LockOrdering {
  import opened JavaString

  /** The ids of a transfer's two accounts in the order their monitors are taken. */
  datatype LockPair = LockPair(first: string, second: string)

  /** The source is locked first unless its id compares greater than the destination's. */
  function LockOrder(source: string, destination: string): (p: LockPair)
    ensures (p.first == source && p.second == destination)
         || (p.first == destination && p.second == source)
    ensures CompareTo(p.first, p.second) <= 0
  {
    if CompareTo(source, destination) > 0 then
      CompareToAntisymmetric(source, destination);
      LockPair(destination, source)
    else
      LockPair(source, destination)
  }

  /** Transfers A to B and B to A take the two monitors in the same order. */
  lemma LockOrderSymmetric(a: string, b: string)
    ensures LockOrder(a, b) == LockOrder(b, a)
  {
    CompareToAntisymmetric(a, b);
  }

  /** For two distinct ids the first lock sorts strictly before the second. */
  lemma LockOrderStrict(source: string, destination: string)
    requires source != destination
    ensures Less(LockOrder(source, destination).first, LockOrder(source, destination).second)
  {
  }

  /**
   * Transfers between distinct accounts, each holding its first monitor and
   * blocked on its second, where each one's second monitor is held by the next
   * transfer in the list and the last one's by the first: a circular wait.
   */
  ghost predicate WaitCycle(ts: seq<(string, string)>) {
    && |ts| > 0
    && (forall i :: 0 <= i < |ts| ==> ts[i].0 != ts[i].1)
    && (forall i :: 0 <= i < |ts| - 1 ==>
          LockOrder(ts[i].0, ts[i].1).second == LockOrder(ts[i + 1].0, ts[i + 1].1).first)
    && LockOrder(ts[|ts| - 1].0, ts[|ts| - 1].1).second == LockOrder(ts[0].0, ts[0].1).first
  }

  /** No set of in-flight transfers can wait on each other in a cycle: deadlock freedom. */
  lemma {:induction false} NoWaitCycle(ts: seq<(string, string)>)
    ensures !WaitCycle(ts)
  {
    if WaitCycle(ts) {
      var start := LockOrder(ts[0].0, ts[0].1).first;
      var k := 0;
      LockOrderStrict(ts[0].0, ts[0].1);
      while k < |ts| - 1
        invariant 0 <= k < |ts|
        invariant Less(start, LockOrder(ts[k].0, ts[k].1).second)
      {
        LockOrderStrict(ts[k + 1].0, ts[k + 1].1);
        LessTransitive(start, LockOrder(ts[k + 1].0, ts[k + 1].1).first,
                       LockOrder(ts[k + 1].0, ts[k + 1].1).second);
        k := k + 1;
      }
      LessTotal(start, start);
    }
  }
}

=== FILE: scenarios.dfy ===
/** The service and controller test scenarios, stated as facts about the model. */
module Scenarios {
  import opened Wrappers
  import opened Accounts
  import opened TransferRequest
  import opened AccountsService

  /** John holds 1245, Ron 123.45. */
  const JohnAndRon: Store := map["John" := 1245.0, "Ron" := 123.45]

  /** Sending 100 from John to Ron leaves John with 1145 and Ron with 223.45. */
  lemma JohnSendsRonHundred()
    ensures Transfer(JohnAndRon, "John", "Ron", 100.0).error.None?
    ensures GetAccount(Transfer(JohnAndRon, "John", "Ron", 100.0).store, "John") == Some(Account("John", 1145.0))
    ensures GetAccount(Transfer(JohnAndRon, "John", "Ron", 100.0).store, "Ron") == Some(Account("Ron", 223.45))
  {
  }

  /** Sending 10000 from John fails for insufficient funds and changes nothing. */
  lemma JohnCannotSendTenThousand()
    ensures Transfer(JohnAndRon, "John", "Ron", 10000.0) ==
      Outcome(JohnAndRon, ["John", "Ron"], [], Some(InsufficientFunds(InsufficientFundsMessage)))
  {
  }

  /** "RON" is not "Ron": sending to it fails with invalid account details before any lock is taken. */
  lemma UnknownRecipientRejected()
    ensures Transfer(JohnAndRon, "John", "RON", 10.0) ==
      Outcome(JohnAndRon, [], [], Some(InvalidAccountDetails(InvalidDetailsMessage)))
  {
    assert "RON" != "Ron";
  }

  /** A request for -10, or for half a unit, never passes validation, so it never reaches the store. */
  lemma NegativeAmountRequestRejected()
    ensures !ValidAsWritten(TransferMoneyModel(Some("John"), Some("Ron"), Some(-10.0)))
    ensures !ValidAsWritten(TransferMoneyModel(Some("John"), Some("Ron"), Some(0.5)))
  {
  }

  /**
   * A request naming John and Ron but leaving out the amount passes the
   * constraints as annotated and then throws a NullPointerException inside the
   * service; with the amount required it does not pass validation at all.
   */
  lemma NullAmountReachesService()
    ensures ValidAsWritten(TransferMoneyModel(Some("John"), Some("Ron"), None))
    ensures TransferMoneyAsWritten(JohnAndRon, TransferMoneyModel(Some("John"), Some("Ron"), None))
            == Outcome(JohnAndRon, ["John", "Ron"], [], Some(NullPointer))
    ensures !Valid(TransferMoneyModel(Some("John"), Some("Ron"), None))
  {
    assert "John" != "Ron";
  }
}

=== FILE: transfer_request.dfy ===
/**
 * The transfer request `TransferMoneyModel` and the meaning of its Bean
 * Validation constraints. The service itself checks none of them; the request
 * is validated before it reaches the service.
 */
module TransferRequest {
  import opened Wrappers

  /** A transfer request; every field is a nullable Java reference. */
  datatype TransferMoneyModel = TransferMoneyModel(
    accountFromId: Option<string>,
    accountToId: Option<string>,
    amount: Option<real>)

  /** `@NotNull @NotEmpty` on a string field: present and of non-zero length. */
  predicate NotNullNotEmpty(field: Option<string>) {
    field.Some? && |field.value| > 0
  }

  /** `@Min(value)` on a decimal field: a null value passes, any other must be at least `value`. */
  predicate Min(field: Option<real>, value: int) {
    field.None? || field.value >= value as real
  }

  /** The least amount the request accepts. */
  const MinAmount: int := 1

  /** The constraints exactly as annotated: the amount carries `@Min(1)` but no `@NotNull`. */
  predicate ValidAsWritten(req: TransferMoneyModel) {
    && NotNullNotEmpty(req.accountFromId)
    && NotNullNotEmpty(req.accountToId)
    && Min(req.amount, MinAmount)
  }

  /** The constraints with `@NotNull` added to the amount, as the other two fields have. */
  predicate Valid(req: TransferMoneyModel) {
    ValidAsWritten(req) && req.amount.Some?
  }

  /** The annotations as written: both ids non-null and non-empty, and an amount that is null or at least 1. */
  lemma ValidAsWrittenMeans(req: TransferMoneyModel)
    ensures ValidAsWritten(req) <==>
      && req.accountFromId.Some? && req.accountFromId.value != ""
      && req.accountToId.Some? && req.accountToId.value != ""
      && (req.amount.None? || req.amount.value >= 1.0)
  {
  }

  /** What validity guarantees the service: two non-empty ids and an amount of at least 1. */
  lemma ValidMeans(req: TransferMoneyModel)
    ensures Valid(req) <==>
      && req.accountFromId.Some? && req.accountFromId.value != ""
      && req.accountToId.Some? && req.accountToId.value != ""
      && req.amount.Some? && req.amount.value >= 1.0
  {
  }

  /** As annotated, a request that leaves the amount out still passes validation. */
  lemma NullAmountPassesAsWritten(from: string, to: string)
    requires from != "" && to != ""
    ensures ValidAsWritten(TransferMoneyModel(Some(from), Some(to), None))
    ensures !Valid(TransferMoneyModel(Some(from), Some(to), None))
  {
  }

  /** Zero, negative amounts and fractions below one are rejected, although the message speaks of "greater than 0". */
  lemma AmountsBelowOneRejected(from: string, to: string, amount: real)
    requires amount < 1.0
    ensures !ValidAsWritten(TransferMoneyModel(Some(from), Some(to), Some(amount)))
  {
  }

  /** A missing or empty id makes the request invalid, whichever side it is on. */
  lemma MissingIdRejected(id: Option<string>, other: Option<string>, amount: Option<real>)
    requires id.None? || id == Some("")
    ensures !ValidAsWritten(TransferMoneyModel(id, other, amount))
    ensures !ValidAsWritten(TransferMoneyModel(other, id, amount))
  {
  }

  /** Validity says nothing about the ids being distinct or naming existing accounts. */
  lemma SameIdsCanBeValid(id: string, amount: real)
    requires id != "" && amount >= 1.0
    ensures Valid(TransferMoneyModel(Some(id), Some(id), Some(amount)))
  {
  }
}

=== FILE: wrappers.dfy ===
/** Java's nullable references as an `Option`. */
module Wrappers {

  /** `None` stands for a Java `null`, `Some(v)` for a non-null reference to `v`. */
  datatype Option<+T> = None | Some(value: T)
}
